=== FILE: README.md ===
# Escape the Upside Down: a Dafny model of the team state machine

The server is a two-player HTTP puzzle. Each team plays two roles, Eleven
in the real world and Mike in the Upside Down. Every request either moves
the puzzle along or reads a team's progress:

- look around
- send the demogorgon tooth
- combine it with the radio
- scan for the gate frequency
- activate the gate panel
- probe the readiness with HEAD and the escape requirements with OPTIONS
- escape, with both roles posting within ten seconds of each other
- fetch the escape key
- ask for hints
- reset

The server keeps all teams in one in-memory dictionary.

This project models that state machine as pure transitions
`(Team, input, now) -> (Team, reply)` over immutable datatypes. The clock
`now` is a parameter in whole seconds.

- `text.dfy` (`Text`): the ASCII part of `lower()` and `strip()`, substring and prefix tests, and `str(n)` with its inverse.
- `items.dfy` (`Items`): the item names, `list.remove`, and the combine comprehension.
- `team.dfy` (`TeamModel`): the team and role records, step-label recording, the team invariant, and the "only grows" relation.
- `puzzle.dfy` (`Puzzle`): look, send, combine, scan, activate, and the HEAD and OPTIONS probes.
- `escape.dfy` (`Escape`): the synchronised escape and key retrieval.
- `hints.dfy` (`Hints`): the hint cooldown, the priority ladder (as written and corrected), and the hint endpoint.
- `server.dfy` (`Server`): the registry of teams in creation order, create-or-get, request dispatch, reset, the admin overview, and traces of requests.
- `scenarios.dfy` (`Scenarios`): properties across several requests. These cover the demonstration client's walkthrough, the escape window, the quirks, the hint cooldown, and the failing hint branch.

The model keeps the server's quirks rather than tidying them up:

- **Combine check versus removal.** The combine check looks for "radio" as a substring, but the removal drops only items that start with "radio".
- **Repeatable scan.** The scan does not use up the tuned radio.
- **Mike's flag.** Mike's readiness flag is `has_eggs` (`hasEggs`).
- **Other role names.** Only the names "Eleven" and "Mike" are checked for readiness before an escape.
- **Escaping again.** An escaped team can escape again and get a new key.
- **Hint time.** The last hint time is tested by Python truthiness.
- **Hint crash.** One hint branch fails (see Findings).

Three behaviours of `main.py` are easy to miss, and the model keeps them:

- a repeated scan succeeds, because the tuned radio stays in the list (main.py:298-300);
- a rejected escape attempt is refused before the attempt is appended, so it is not recorded (main.py:527-534);
- an attempt after escaping overwrites the key and the end time (main.py:549-551).

## Model

| member | source | states |
|---|---|---|
| Text.StripSpec | main.py:68 | `strip()` keeps exactly the slice from the first to the last non-space character; everything removed is white space |
| Text.NormalizeIdempotent | main.py:68-73 | Normalising a normalised name (lower-case, then strip) gives it back, so the comparison key of create-or-get is stable |
| Text.LowerIgnoresCase | main.py:68-73 | Two names that differ only in the case of ASCII letters have the same normalised key |
| Text.ContainsIffOccurs | main.py:258 | The substring test `"radio" in item` holds exactly when "radio" occurs at some position of the item |
| Text.ParseNatToString | main.py:551 | Parsing the decimal rendering of a whole number gives the number back |
| Items.RemoveFirst | main.py:218 | `list.remove(x)` deletes the first occurrence of `x` and only it: the length drops by one and the multiset loses one `x` |
| Items.DropCombined | main.py:263-264 | The combine comprehension keeps every item that neither starts with "radio" nor is the tooth, with its multiplicity, and nothing else. A list of survivors comes back unchanged, and a single item is kept or dropped by the same test |
| Items.DropCombinedAppend | main.py:263-264 | The comprehension filters piecewise: the survivors of `a + b` are those of `a` followed by those of `b`, so the survivors keep their original order |
| Items.TunedRadioIsKept | main.py:264-267 | "tuned radio" does not start with "radio", so a later combine keeps it |
| TeamModel.RecordStep | main.py:160-161 | After recording, the label is present; the earlier labels stay in place; at most one label is added and none when it was already there; no duplicate appears |
| TeamModel.LabelInjective | main.py:160-161 | Distinct step labels are stored as distinct strings (`GET_ELEVEN`, …, `OPTIONS`), so the label sequence mirrors `steps_completed` |
| TeamModel.NewTeamIsPristine | main.py:88-115 | A created team holds its defaults: the two starting inventories, no flag, no attempt, no label, no key, no hint time. It satisfies the team invariant |
| Puzzle.Look | main.py:151-199 | A look records exactly that role's label (appended only when absent), returns that role's items, and changes nothing else |
| Puzzle.SendItem | main.py:202-240 | Sending succeeds iff Mike sends the tooth and holds one. The first tooth is then removed from Mike's list, the other items keeping their order (`list.remove`), and a tooth is appended to Eleven's list; the two inventories together keep their multiset. Every other case leaves the team as it was apart from the POST label |
| Puzzle.UseItem | main.py:243-281 | Combining succeeds iff Eleven asks for `combine_radio_tooth`, some item contains "radio" and the tooth is held. Afterwards Eleven's list is exactly the survivors of the comprehension, in their original order, followed by "tuned radio": no item starts with "radio" or is the tooth, and the other items keep their counts. On failure only the PUT label changes |
| Puzzle.Fix | main.py:284-315 | Scanning succeeds iff Eleven asks for `scan_frequency` holding the tuned radio. It sets the frequency flag, appends the reading, reveals "0110" and keeps the tuned radio. On failure only the PATCH label changes |
| Puzzle.Remove | main.py:318-349 | Activation succeeds iff Mike enters "0110" holding the walkie-talkie. The first walkie-talkie is removed, the other items keeping their order, and the activated panel is appended last; Mike's `has_eggs` is set. On failure only the DELETE label changes |
| Puzzle.QuickStatus | main.py:352-376 | The sync header is STABLE iff both roles are ready. The other headers report the flags and the elapsed time. Exactly the HEAD label is recorded (appended only when absent) and nothing else changes |
| Puzzle.EscapeOptions | main.py:379-398 | The OPTIONS probe records exactly the OPTIONS label (appended only when absent) and changes nothing else |
| Escape.AttemptEscape | main.py:518-569 | A not-ready Eleven or Mike is rejected with nothing recorded; any other name skips the check. Otherwise one attempt is appended. The team escapes iff the previous attempt is at most 10 s away, getting end time `now` and key `ESCAPE_<name>_<now>`. Otherwise the reply is the number of attempts |
| Escape.GetEscapeKey | main.py:572-592 | The key is returned iff the team escaped, together with the stored key, the time from start to escape, the number of labels and the total hints |
| Escape.EscapeKeyDeterminesTime | main.py:551 | Two escape keys of the same team are equal only if they were made at the same second |
| Hints.NextStep | main.py:452-492 | A step of the route the team has not recorded, every step before it on the route being recorded, so it is the first missing one. There is none iff all eight labels are recorded |
| Hints.ContextualHint | main.py:442-515 | An escaped team is told so first. Otherwise the hint advises the earliest missing step, in the variant for the asking role: Mike, Eleven or neither for the tooth; Eleven or not for combining and scanning; Mike or not for the code. With the route complete and fewer than two attempts, an unready Eleven or Mike asking is told so. With no attempt, Eleven is told to go first, Mike to follow, and anyone else to coordinate. With one attempt the ladder fails exactly when the asker is not an unready role. With two or more attempts the fallback hint is given |
| Hints.GetHint | main.py:401-440 | Within 30 s of a (truthy) last hint the reply is a wait of 1 to 30 s and nothing changes. Otherwise the hint time becomes `now` and only the named role's counter goes up. The request fails iff the ladder fails, and those updates persist |
| Hints.ContextualHintFixed | main.py:500-507 | The corrected ladder agrees with the server wherever the server answers. On the failing branch it reports an expired attempt after 10 s, and otherwise the seconds left, which together with the time since the attempt make 10 |
| Hints.GetHintFixed | main.py:401-440 | The hint endpoint over the corrected ladder never fails. It changes the team as the server does and gives the same reply whenever the server's does not fail |
| Server.FindByName | main.py:70-73 | The first team in creation order whose normalised name equals the key; none iff no team's does |
| Server.CreateOrGet | main.py:63-126 | An existing team is returned, with the registry unchanged, iff some stored name normalises like the new one. Otherwise a team with the creation defaults is added under the fresh id at the end of the order. The registry invariant is kept: ids listed once, each team sound, normalised names distinct |
| Server.ResetTeam | main.py:625-666 | Reset keeps the id and name, restarts the clock and restores every other field to its creation default |
| Server.PuzzleStep | main.py:151-398 | The puzzle requests and probes keep the team invariant, only grow the team, and neither record attempts nor escape |
| Server.TeamStep | main.py:518-592 | Every team request keeps the invariant (key and end time present iff escaped, the key being `ESCAPE_<name>_<end time>`) and the id and name. Apart from reset the team only grows, and readiness flags never go back. Key and status reads change nothing. A hint request changes the team exactly as the server's endpoint does |
| Server.StatusAgreesWithOverview | main.py:128-148 | The team status and the team's overview line report the same name, flags, elapsed time, label count, attempts and hints |
| Server.ProbesIdempotent | main.py:352-398 | Repeating the HEAD or the OPTIONS probe changes nothing more |
| Server.Handle | main.py:153-156 | An unknown id is "not found" and changes nothing. A known id replaces only that team, keeps the registry invariant, and only grows the team unless it is reset |
| Server.CountSplits | main.py:618-620 | The escaped and trapped counts of the overview add up to the number of lines |
| Server.AllTeams | main.py:595-622 | The overview lists every team once, in creation order, with its summary. The total is the number of teams, split into escaped and trapped |
| Server.AllTeamsCountsEscaped | main.py:619 | The escaped count is the number of stored teams that have escaped |
| Server.Run | main.py:546-551 | After any trace of team requests the registry is still valid, so every team holds a key exactly when it has escaped, and that key is the one made at its end time |
| Server.RunGrows | main.py:151-592 | Without a reset in the trace, every team only grows: labels and attempts are kept, and flags and hint counters never go back |
| Scenarios.CreateTwiceSameTeam | main.py:68-81 | Creating twice with names that normalise alike returns the same id the second time and leaves the registry as the first call left it |
| Scenarios.ScanRepeatable | main.py:297-300 | After a successful scan, scanning again succeeds too |
| Scenarios.ActivateOnce | main.py:331-335 | With one walkie-talkie, a second activation fails and leaves the team as the first one left it |
| Scenarios.CombineOnce | main.py:256-265 | After a successful combine the tooth is gone, so a second combine fails |
| Scenarios.CombineKeepsTunedRadio | main.py:258-267 | Eleven holding only "tuned radio" and the tooth passes the combine check and ends with two tuned radios |
| Scenarios.WalkthroughPrimes | init_db.py:74-254 | From a new team, the demonstration client's eight requests (look ×2, send, combine, scan, activate, HEAD, OPTIONS) leave both roles ready, every label recorded, and no attempt or hint made |
| Scenarios.HappyPathEscapes | main.py:540-551 | From such a team, Eleven then Mike within 10 s: the first attempt waits with one attempt, the second escapes with key `ESCAPE_<name>_<t>`, and the key can then be fetched |
| Scenarios.DesyncTwelveSeconds | main.py:540-548 | Two ready attempts 12 s apart do not escape; the second reports two attempts |
| Scenarios.UnknownRolesEscape | main.py:527-530 | Two attempts by any name other than "Eleven" or "Mike" within 10 s escape a new team in which nobody is ready |
| Scenarios.EscapeAgainRewritesKey | main.py:549-551 | Any stored escaped team (its key made at its end time, by the invariant) attempting again inside the window at another second gets a new end time and a different key |
| Scenarios.HintCooldown | main.py:411-415 | A second hint request within 30 s of a (non-zero) first one waits between 1 and 30 s, and the team does not change |
| Scenarios.HintAtTimeZeroNoCooldown | main.py:411 | A hint stamped at time 0 is falsy and starts no cooldown |
| Scenarios.LadderCrashWitness | main.py:500-502 | Once the route is complete and Eleven has made the first attempt, a hint request naming no role fails |
| Scenarios.LadderFixedAnswers | main.py:500-507 | The corrected ladder answers the same request with "expired" or with the seconds left in the window |

## Left out

- Team ids: `uuid.uuid4()[:8]` is random, so the caller supplies an unused id.
- Time: the wall clock is a float. The model uses whole seconds, so `int(now)` is `now` and sub-second differences in the 10-second and 30-second comparisons are not modelled.
- Elapsed times: the elapsed-time texts (`"12s"`, `"12 seconds"`) are kept as the integer they format.
- Hint log: the `hint_requests` log is only ever appended to and never read.
- Plumbing: FastAPI routing, CORS, the pydantic request classes, and header and JSON construction. The model keeps the success flag, codes, keys and counters, but not the narrative text, locations, notes or `gate_locked` fields, which never change. Some reply fields are not carried either. The failed combine does not echo Eleven's items (main.py:280). The failed activation does not echo Mike's items (main.py:348). The successful escape does not repeat the step list or the hint total (main.py:558-559); the key request reports the labels as a count (main.py:587) and the hint total, and the team status reports the list itself (main.py:145). The hint reply does not echo the asker (main.py:437). All of these are copies of state the model does hold.
- Hint texts: each ladder answer is a constructor of `Hints.Hint`, not its text.
- Unicode: `lower()` and `strip()` are modelled for ASCII only. Unicode case mapping and non-ASCII white space are not.
- Root endpoint: `GET /` is a read-only greeting and is not modelled.
- Concurrency: each handler runs without awaiting, so each request is one atomic transition.
- init_db.py: the demonstration client is not modelled. Its request sequence appears only as the walkthrough in `Scenarios`.
- Server.CreateOrGet: it requires the registry invariant, which holds from the empty registry onward (`EmptyIsValid`, `Handle`, `Run`). The server itself does not rely on it.
- Escape.GetEscapeKey: it requires the team invariant, so that an escaped team has a key and an end time. Every stored team satisfies it.

## Findings

| source | as written | input that shows it | evidently intended | confidence | as-written member | corrected member |
|---|---|---|---|---|---|---|
| main.py:502 | `generate_contextual_hint` computes `current_time - last_attempt['time']`, but `current_time` is local to `get_hint` and undefined here, so the branch raises and the request fails | every route label recorded, exactly one escape attempt, then `GET /{id}/hint` with no `friend` (or with a ready role) after the cooldown | measure the time since the attempt against the request time: report "expired" after 10 s, else the seconds left | high (not executed) | Scenarios.LadderCrashWitness | Scenarios.LadderFixedAnswers |

`Hints.ContextualHint` and `Hints.GetHint` model the ladder and the endpoint as written. The failing branch is an outcome of its own, and the hint time and counter updates made before the ladder runs persist. `Hints.ContextualHintFixed` and `Hints.GetHintFixed` take `now` into the ladder and answer on every path. The dispatcher in `Server` uses the corrected endpoint. `Server.TeamStep` states that its change to the team is exactly the server's, so every property of traces holds for the server as written.

=== FILE: escape.dfy ===
/**
 The synchronised escape and the key retrieval. An escape succeeds when the
 two most recent attempts (whoever made them) are at most ten seconds apart.
 */
module Escape {
  import opened Text
  import opened TeamModel

  function Abs(x: int): nat {
    if x < 0 then -x else x
  }

  /**
   The readiness check of POST /{id}/escape. It only looks at the two exact
   role names; any other `friend` passes without a check.
   */
  predicate Ready(t: Team, friend: string) {
    && (friend == ElevenRole ==> t.eleven.hasFrequency)
    && (friend == MikeRole ==> t.mike.hasEggs)
  }

  datatype NotReady = ElevenLacksFrequency | MikeLacksPanel

  datatype EscapeReply =
    | Rejected(why: NotReady)
    | Escaped(key: string, timeTaken: int)
    | Waiting(attempts: nat)

  /**
   POST /{id}/escape. A role that is not ready is rejected (a client error)
   and nothing is recorded. Otherwise the attempt is appended, and the team
   escapes iff there was an earlier attempt at most ten seconds away from
   this one. Nothing stops an escaped team from escaping again: a further
   attempt inside the window rewrites the key and the end time.
   */
  function AttemptEscape(t: Team, friend: string, now: nat): (r: (Team, EscapeReply))
    ensures r.1.Rejected? <==> !Ready(t, friend)
    ensures r.1.Rejected? ==>
      r.0 == t && (r.1.why == ElevenLacksFrequency <==> friend == ElevenRole)
    ensures !r.1.Rejected? ==> r.0.attempts == t.attempts + [Attempt(friend, now)]
    ensures r.1.Escaped? <==>
      Ready(t, friend) && |t.attempts| >= 1 && Abs(now - t.attempts[|t.attempts| - 1].time) <= Window
    ensures r.1.Escaped? ==>
      && r.0.escaped
      && r.0.endTime == Some(now)
      && r.0.escapeKey == Some(r.1.key)
      && r.1.key == EscapeKey(t.name, now)
      && t.startTime + r.1.timeTaken == now
    ensures r.1.Waiting? ==> r.1.attempts == |r.0.attempts| && r.0 == t.(attempts := r.0.attempts)
    ensures r.0 == t.(attempts := r.0.attempts, escaped := r.0.escaped,
                      endTime := r.0.endTime, escapeKey := r.0.escapeKey)
  {
    if friend == ElevenRole && !t.eleven.hasFrequency then (t, Rejected(ElevenLacksFrequency))
    else if friend == MikeRole && !t.mike.hasEggs then (t, Rejected(MikeLacksPanel))
    else
      var attempts := t.attempts + [Attempt(friend, now)];
      var n := |attempts|;
      if n >= 2 && Abs(attempts[n - 1].time - attempts[n - 2].time) <= Window then
        var key := EscapeKey(t.name, now);
        (t.(attempts := attempts, escaped := true, endTime := Some(now), escapeKey := Some(key)),
         Escaped(key, now - t.startTime))
      else
        (t.(attempts := attempts), Waiting(n))
  }

  datatype KeyInfo = KeyInfo(name: string, key: string, timeTaken: int, stepCount: nat, hintsUsed: nat)

  datatype KeyReply = NotEscapedYet | Key(info: KeyInfo)

  /**
   GET /{id}/key: a pure read. It refuses (a client error) until the team
   has escaped; afterwards it returns the stored key, the time from start to
   escape, the number of step labels and the hints used by both roles.
   */
  function GetEscapeKey(t: Team): (r: KeyReply)
    requires Inv(t)
    ensures r.Key? <==> t.escaped
    ensures r.Key? ==>
      && t.escapeKey == Some(r.info.key)
      && t.endTime.Some? && t.startTime + r.info.timeTaken == t.endTime.value
      && r.info.name == t.name
      && r.info.stepCount == |t.steps|
      && r.info.hintsUsed == t.eleven.hintsUsed + t.mike.hintsUsed
  {
    if !t.escaped then NotEscapedYet
    else Key(KeyInfo(t.name, t.escapeKey.value, t.endTime.value - t.startTime, |t.steps|, TotalHints(t)))
  }

  /** The key's trailing digits determine the escape time. */
  lemma {:induction false} EscapeKeyDeterminesTime(name: string, a: nat, b: nat)
    requires EscapeKey(name, a) == EscapeKey(name, b)
    ensures a == b
  {
    var p := "ESCAPE_" + name + "_";
    assert EscapeKey(name, a)[|p|..] == NatToString(a);
    assert EscapeKey(name, b)[|p|..] == NatToString(b);
    NatToStringInjective(a, b);
  }
}

=== FILE: hints.dfy ===
/**
 The hint advisor: a team-wide 30-second cooldown, a per-role counter, and
 a priority ladder that points at the earliest step of the intended route
 the team has not taken yet. Each hint is a constructor here rather than the
 server's text.
 */
module Hints {
  import opened TeamModel

  /** Seconds between two hints a team may receive. */
  const Cooldown: int := 30

  datatype Hint =
    | AlreadyEscaped
    | LookAround
    | MikeSendTooth | ElevenAwaitTooth | SendToothGeneric
    | ElevenCombine | CombineGeneric
    | ElevenScan | ScanGeneric
    | MikeEnterCode | CodeGeneric
    | CheckSync
    | CheckOptions
    | ElevenNotReady | MikeNotReady
    | AttemptExpired | Hurry(secondsLeft: int)
    | ElevenGoFirst | MikeFollow | BothCoordinate
    | Fallback

  lemma AllLabelsPresent(steps: seq<Step>)
    requires GetEleven in steps && GetMike in steps && Post in steps && Put in steps
    requires Patch in steps && Delete in steps && Head in steps && Options in steps
    ensures forall s: Step :: s in steps
  {
    forall s: Step ensures s in steps {
      match s
      case GetEleven => case GetMike => case Post => case Put =>
      case Patch => case Delete => case Head => case Options =>
    }
  }

  /** The intended route: the order in which the ladder checks the labels. */
  const Route: seq<Step> := [GetEleven, GetMike, Post, Put, Patch, Delete, Head, Options]

  /** The position of a label on the route. */
  function RouteIndex(s: Step): (i: nat)
    ensures i < |Route| && Route[i] == s
  {
    match s
    case GetEleven => 0 case GetMike => 1 case Post => 2 case Put => 3
    case Patch => 4 case Delete => 5 case Head => 6 case Options => 7
  }

  /**
   The earliest label of the intended route (look around, send, combine,
   scan, activate, probe status, probe escape) that `steps` lacks.
   */
  function NextStep(steps: seq<Step>): (r: Option<Step>)
    ensures r.Some? ==> r.value !in steps
    ensures r.Some? ==> forall j :: 0 <= j < RouteIndex(r.value) ==> Route[j] in steps
    ensures r.None? <==> forall s: Step :: s in steps
  {
    if GetEleven !in steps then Some(GetEleven)
    else if GetMike !in steps then Some(GetMike)
    else if Post !in steps then Some(Post)
    else if Put !in steps then Some(Put)
    else if Patch !in steps then Some(Patch)
    else if Delete !in steps then Some(Delete)
    else if Head !in steps then Some(Head)
    else if Options !in steps then Some(Options)
    else
      AllLabelsPresent(steps);
      None
  }

  predicate IsFriend(friend: Option<string>, who: string) {
    friend == Some(who)
  }

  datatype LadderOutcome = Given(hint: Hint) | NameError

  /**
   The ladder of `generate_contextual_hint`: a team that escaped is told so
   first; otherwise the hint concerns the earliest missing label of the
   route. With every label present, the ladder reads a variable the function
   never defines when exactly one escape attempt has been made and the asking
   role is not the unready one, so the request fails there.
   */
  function ContextualHint(t: Team, friend: Option<string>): (r: LadderOutcome)
    ensures t.escaped ==> r == Given(AlreadyEscaped)
    ensures r.NameError? <==>
      && !t.escaped && NextStep(t.steps).None?
      && |t.attempts| == 1
      && !(IsFriend(friend, ElevenRole) && !t.eleven.hasFrequency)
      && !(IsFriend(friend, MikeRole) && !t.mike.hasEggs)
    ensures !t.escaped && NextStep(t.steps).None? && |t.attempts| >= 2 ==>
      r == Given(Fallback)
    // the role-specific variant of each step rung
    ensures !t.escaped && NextStep(t.steps) in {Some(GetEleven), Some(GetMike)} ==>
      r == Given(LookAround)
    ensures !t.escaped && NextStep(t.steps) == Some(Post) ==>
      r == Given(if IsFriend(friend, MikeRole) then MikeSendTooth
                 else if IsFriend(friend, ElevenRole) then ElevenAwaitTooth
                 else SendToothGeneric)
    ensures !t.escaped && NextStep(t.steps) == Some(Put) ==>
      r == Given(if IsFriend(friend, ElevenRole) then ElevenCombine else CombineGeneric)
    ensures !t.escaped && NextStep(t.steps) == Some(Patch) ==>
      r == Given(if IsFriend(friend, ElevenRole) then ElevenScan else ScanGeneric)
    ensures !t.escaped && NextStep(t.steps) == Some(Delete) ==>
      r == Given(if IsFriend(friend, MikeRole) then MikeEnterCode else CodeGeneric)
    ensures !t.escaped && NextStep(t.steps) == Some(Head) ==> r == Given(CheckSync)
    ensures !t.escaped && NextStep(t.steps) == Some(Options) ==> r == Given(CheckOptions)
    // the readiness rung, and the coordination rung before any attempt
    ensures !t.escaped && NextStep(t.steps).None? && |t.attempts| < 2 ==>
      && (IsFriend(friend, ElevenRole) && !t.eleven.hasFrequency ==> r == Given(ElevenNotReady))
      && (IsFriend(friend, MikeRole) && !t.mike.hasEggs ==> r == Given(MikeNotReady))
    ensures !t.escaped && NextStep(t.steps).None? && |t.attempts| == 0
            && !(IsFriend(friend, ElevenRole) && !t.eleven.hasFrequency)
            && !(IsFriend(friend, MikeRole) && !t.mike.hasEggs) ==>
      r == Given(if IsFriend(friend, ElevenRole) then ElevenGoFirst
                 else if IsFriend(friend, MikeRole) then MikeFollow
                 else BothCoordinate)
  {
    if t.escaped then Given(AlreadyEscaped)
    else
      var steps := t.steps;
      if GetEleven !in steps || GetMike !in steps then Given(LookAround)
      else if Post !in steps then
        if IsFriend(friend, MikeRole) then Given(MikeSendTooth)
        else if IsFriend(friend, ElevenRole) then Given(ElevenAwaitTooth)
        else Given(SendToothGeneric)
      else if Put !in steps then
        if IsFriend(friend, ElevenRole) then Given(ElevenCombine) else Given(CombineGeneric)
      else if Patch !in steps then
        if IsFriend(friend, ElevenRole) then Given(ElevenScan) else Given(ScanGeneric)
      else if Delete !in steps then
        if IsFriend(friend, MikeRole) then Given(MikeEnterCode) else Given(CodeGeneric)
      else if Head !in steps then Given(CheckSync)
      else if Options !in steps then Given(CheckOptions)
      else if |t.attempts| < 2 then
        if IsFriend(friend, ElevenRole) && !t.eleven.hasFrequency then Given(ElevenNotReady)
        else if IsFriend(friend, MikeRole) && !t.mike.hasEggs then Given(MikeNotReady)
        else if |t.attempts| > 0 then NameError
        else if IsFriend(friend, ElevenRole) then Given(ElevenGoFirst)
        else if IsFriend(friend, MikeRole) then Given(MikeFollow)
        else Given(BothCoordinate)
      else Given(Fallback)
  }

  /**
   The ladder as evidently intended: on the branch that fails above, the
   time since the single attempt is measured against `now`, and the team
   learns either that the attempt expired or how many seconds of the window
   remain. Everywhere else it gives the same hint as the server.
   */
  function ContextualHintFixed(t: Team, friend: Option<string>, now: nat): (h: Hint)
    ensures ContextualHint(t, friend).Given? ==> h == ContextualHint(t, friend).hint
    ensures ContextualHint(t, friend).NameError? ==>
      |t.attempts| == 1 &&
      var since := now - t.attempts[0].time;
      (since > Window ==> h == AttemptExpired) &&
      (since <= Window ==> h.Hurry? && h.secondsLeft + since == Window && h.secondsLeft >= 0)
  {
    match ContextualHint(t, friend)
    case Given(h) => h
    case NameError =>
      var since := now - t.attempts[|t.attempts| - 1].time;
      if since > Window then AttemptExpired else Hurry(Window - since)
  }

  /** Python truthiness of `last_hint_time`: absent, or the number 0, is false. */
  predicate HintTimeSet(last: Option<nat>) {
    last.Some? && last.value != 0
  }

  predicate CoolingDown(t: Team, now: nat) {
    HintTimeSet(t.lastHintTime) && now - t.lastHintTime.value < Cooldown
  }

  datatype HintReply =
    | Wait(remaining: int)
    | Advice(hint: Hint, hintsUsedTotal: nat)
    | Crashed

  /** The bookkeeping done before the ladder runs: stamp the time, count the hint. */
  function CountHint(t: Team, friend: Option<string>, now: nat): Team {
    var t1 := t.(lastHintTime := Some(now));
    if IsFriend(friend, ElevenRole) then t1.(eleven := t1.eleven.(hintsUsed := t1.eleven.hintsUsed + 1))
    else if IsFriend(friend, MikeRole) then t1.(mike := t1.mike.(hintsUsed := t1.mike.hintsUsed + 1))
    else t1
  }

  /**
   GET /{id}/hint. Within 30 seconds of the previous hint the team is told
   how long to wait and nothing changes. Otherwise the hint time becomes
   `now` and the asking role's counter goes up by one (no counter for any
   other value), and the ladder answers. These updates happen before the
   ladder runs, so they persist even when the ladder fails.
   */
  function GetHint(t: Team, friend: Option<string>, now: nat): (r: (Team, HintReply))
    ensures r.1.Wait? <==> CoolingDown(t, now)
    ensures r.1.Wait? ==>
      && r.0 == t
      && now + r.1.remaining == t.lastHintTime.value + Cooldown
      && 1 <= r.1.remaining
      && (now >= t.lastHintTime.value ==> r.1.remaining <= Cooldown)
    ensures !r.1.Wait? ==>
      && r.0.lastHintTime == Some(now)
      && r.0.eleven.hintsUsed == t.eleven.hintsUsed + (if IsFriend(friend, ElevenRole) then 1 else 0)
      && r.0.mike.hintsUsed == t.mike.hintsUsed + (if IsFriend(friend, MikeRole) then 1 else 0)
      && r.0.eleven == t.eleven.(hintsUsed := r.0.eleven.hintsUsed)
      && r.0.mike == t.mike.(hintsUsed := r.0.mike.hintsUsed)
      && r.0 == t.(lastHintTime := r.0.lastHintTime, eleven := r.0.eleven, mike := r.0.mike)
    ensures r.1.Crashed? <==> !CoolingDown(t, now) && ContextualHint(t, friend).NameError?
    ensures r.1.Advice? ==>
      && ContextualHint(t, friend) == Given(r.1.hint)
      && r.1.hintsUsedTotal == TotalHints(r.0)
  {
    if CoolingDown(t, now) then (t, Wait(Cooldown - (now - t.lastHintTime.value)))
    else
      var t1 := CountHint(t, friend, now);
      match ContextualHint(t1, friend)
      case Given(h) => (t1, Advice(h, TotalHints(t1)))
      case NameError => (t1, Crashed)
  }

  /**
   GET /{id}/hint with the corrected ladder: the same cooldown and counting,
   and an answer on every path.
   */
  function GetHintFixed(t: Team, friend: Option<string>, now: nat): (r: (Team, HintReply))
    ensures !r.1.Crashed?
    ensures r.0 == GetHint(t, friend, now).0
    ensures !GetHint(t, friend, now).1.Crashed? ==> r.1 == GetHint(t, friend, now).1
  {
    if CoolingDown(t, now) then (t, Wait(Cooldown - (now - t.lastHintTime.value)))
    else
      var t1 := CountHint(t, friend, now);
      (t1, Advice(ContextualHintFixed(t1, friend, now), TotalHints(t1)))
  }
}

=== FILE: items.dfy ===
/**
 The item names of the puzzle and the two list operations the transitions
 perform on an inventory: Python's `list.remove(x)` (first occurrence) and
 the comprehension that combining uses to throw away the radio and the tooth.
 */
module Items {
  import opened Text

  const Radio: string := "radio"
  const Note: string := "note: 'need demogorgon frequency'"
  const Tooth: string := "demogorgon tooth"
  const Walkie: string := "broken walkie-talkie"
  const TunedRadio: string := "tuned radio"
  const FrequencyReading: string := "frequency reading"
  const GatePanel: string := "activated gate panel"

  /** The code the frequency scan reveals and the gate panel accepts. */
  const GateCode: string := "0110"

  /** Index of the first occurrence of `x` in `s`. */
  function FirstIndex(s: seq<string>, x: string): (k: nat)
    requires x in s
    ensures k < |s| && s[k] == x
    ensures forall j :: 0 <= j < k ==> s[j] != x
  {
    if s[0] == x then 0 else 1 + FirstIndex(s[1..], x)
  }

  /**
   `s.remove(x)` when `x` is present: the first occurrence, and only that
   one, is deleted; the other items keep their order.
   */
  function RemoveFirst(s: seq<string>, x: string): (r: seq<string>)
    requires x in s
    ensures |r| == |s| - 1
    ensures r == s[..FirstIndex(s, x)] + s[FirstIndex(s, x) + 1..]
    ensures multiset(r) == multiset(s) - multiset{x}
  {
    var k := FirstIndex(s, x);
    assert s == s[..k] + [x] + s[k + 1..];
    s[..k] + s[k + 1..]
  }

  /**
   An item that survives the combine step: it neither starts with "radio"
   nor is the tooth. The combine precondition looks for "radio" as a
   substring instead, so an item such as "tuned radio" passes the check and
   survives the removal.
   */
  predicate KeptByCombine(item: string) {
    !StartsWith(item, Radio) && item != Tooth
  }

  /** The combined radio does not start with "radio", so a second combine keeps it. */
  lemma TunedRadioIsKept()
    ensures KeptByCombine(TunedRadio)
  {
    assert TunedRadio[..|Radio|][0] != Radio[0];
  }

  /**
   The comprehension `[item for item in items if not item.startswith('radio')
   and item != "demogorgon tooth"]`: every surviving item is kept, with its
   multiplicity, and nothing else is. A list of survivors comes back as it
   was, and `DropCombinedAppend` shows the survivors keep their order.
   */
  function DropCombined(s: seq<string>): (r: seq<string>)
    ensures |r| <= |s|
    ensures forall i :: 0 <= i < |r| ==> KeptByCombine(r[i])
    ensures forall x :: multiset(r)[x] == if KeptByCombine(x) then multiset(s)[x] else 0
    ensures (forall i :: 0 <= i < |s| ==> KeptByCombine(s[i])) ==> r == s
    ensures |s| == 1 ==> r == (if KeptByCombine(s[0]) then s else [])
  {
    if s == [] then []
    else
      var rest := DropCombined(s[1..]);
      assert s == [s[0]] + s[1..];
      if KeptByCombine(s[0]) then [s[0]] + rest else rest
  }

  /**
   The comprehension filters piecewise: the survivors of a concatenation are
   the survivors of the first part followed by those of the second. With the
   one-item case above, this fixes the result to the survivors in their
   original order.
   */
  lemma {:induction false} DropCombinedAppend(a: seq<string>, b: seq<string>)
    ensures DropCombined(a + b) == DropCombined(a) + DropCombined(b)
  {
    if a == [] {
      assert a + b == b;
    } else {
      assert (a + b)[0] == a[0];
      assert (a + b)[1..] == a[1..] + b;
      DropCombinedAppend(a[1..], b);
    }
  }

  /** `any("radio" in item for item in items)`. */
  predicate HasRadioLike(s: seq<string>) {
    exists i :: 0 <= i < |s| && Contains(s[i], Radio)
  }
}

=== FILE: puzzle.dfy ===
/**
 The puzzle-advancing requests. Each one first records its step label (even
 when the action is then refused), then checks the role-specific
 precondition, and either applies its effect or reports failure leaving the
 team as it was apart from the label.
 */
module Puzzle {
  import opened Text
  import opened Items
  import opened TeamModel

  datatype Role = Eleven | Mike

  /**
   GET /{id}/eleven and GET /{id}/mike: record the look-around label and
   show that role's items; nothing else changes.
   */
  function Look(t: Team, role: Role): (r: (Team, seq<string>))
    ensures r.1 == (if role == Eleven then t.eleven.items else t.mike.items)
    ensures r.0.steps == RecordStep(t.steps, if role == Eleven then GetEleven else GetMike)
    ensures r.0 == t.(steps := r.0.steps)
  {
    if role == Eleven then (t.(steps := RecordStep(t.steps, GetEleven)), t.eleven.items)
    else (t.(steps := RecordStep(t.steps, GetMike)), t.mike.items)
  }

  datatype SendReply =
    | ToothSent(elevenItems: seq<string>, mikeItems: seq<string>)
    | MikeLacksTooth(mikeItems: seq<string>)
    | CannotSend

  /**
   POST /{id}/send_item: only Mike may send, and only the tooth. On success
   one tooth moves from Mike's list to the end of Eleven's, so the items of
   the two roles together are the same multiset as before.
   */
  function SendItem(t: Team, fromFriend: string, item: string, now: nat): (r: (Team, SendReply))
    ensures r.0.steps == RecordStep(t.steps, Post)
    ensures r.1.CannotSend? <==> !(fromFriend == MikeRole && item == Tooth)
    ensures r.1.ToothSent? <==> fromFriend == MikeRole && item == Tooth && Tooth in t.mike.items
    ensures r.1.ToothSent? ==>
      && r.0.mike.items == RemoveFirst(t.mike.items, Tooth)
      && multiset(r.0.mike.items) == multiset(t.mike.items) - multiset{Tooth}
      && r.0.eleven.items == t.eleven.items + [Tooth]
      && r.0.mike.lastAction == Some(now)
      && r.1.elevenItems == r.0.eleven.items && r.1.mikeItems == r.0.mike.items
    ensures r.1.MikeLacksTooth? ==> r.1.mikeItems == t.mike.items
    ensures multiset(r.0.eleven.items + r.0.mike.items) == multiset(t.eleven.items + t.mike.items)
    ensures !r.1.ToothSent? ==> r.0 == t.(steps := r.0.steps)
    ensures r.0.eleven == t.eleven.(items := r.0.eleven.items)
    ensures r.0.mike == t.mike.(items := r.0.mike.items, lastAction := r.0.mike.lastAction)
    ensures r.0 == t.(steps := r.0.steps, eleven := r.0.eleven, mike := r.0.mike)
  {
    var t1 := t.(steps := RecordStep(t.steps, Post));
    if fromFriend == MikeRole && item == Tooth then
      if Tooth in t1.mike.items then
        var mike := t1.mike.(items := RemoveFirst(t1.mike.items, Tooth), lastAction := Some(now));
        var eleven := t1.eleven.(items := t1.eleven.items + [Tooth]);
        assert multiset(eleven.items + mike.items)
            == multiset(t.eleven.items) + multiset{Tooth} + multiset(mike.items);
        (t1.(eleven := eleven, mike := mike), ToothSent(eleven.items, mike.items))
      else (t1, MikeLacksTooth(t1.mike.items))
    else (t1, CannotSend)
  }

  const CombineAction: string := "combine_radio_tooth"
  const ScanAction: string := "scan_frequency"

  /**
   PUT /{id}/use_item: Eleven combines the radio and the tooth. The check asks
   for an item that merely contains "radio", while the removal drops the items
   that start with "radio"; on success every remaining item survives that
   removal (in particular no tooth is left) and "tuned radio" is appended.
   */
  function UseItem(t: Team, friend: string, action: string, now: nat): (r: (Team, bool))
    ensures r.0.steps == RecordStep(t.steps, Put)
    ensures r.1 <==>
      friend == ElevenRole && action == CombineAction
      && HasRadioLike(t.eleven.items) && Tooth in t.eleven.items
    ensures r.1 ==>
      && r.0.eleven.items == DropCombined(t.eleven.items) + [TunedRadio]
      && |r.0.eleven.items| >= 1
      && r.0.eleven.items[|r.0.eleven.items| - 1] == TunedRadio
      && (forall i :: 0 <= i < |r.0.eleven.items| ==> KeptByCombine(r.0.eleven.items[i]))
      && Tooth !in r.0.eleven.items
      && (forall x :: x != TunedRadio && KeptByCombine(x) ==>
            multiset(r.0.eleven.items)[x] == multiset(t.eleven.items)[x])
      && multiset(r.0.eleven.items)[TunedRadio] == multiset(t.eleven.items)[TunedRadio] + 1
      && r.0.eleven.lastAction == Some(now)
    ensures !r.1 ==> r.0 == t.(steps := r.0.steps)
    ensures r.0.eleven == t.eleven.(items := r.0.eleven.items, lastAction := r.0.eleven.lastAction)
    ensures r.0 == t.(steps := r.0.steps, eleven := r.0.eleven)
  {
    var t1 := t.(steps := RecordStep(t.steps, Put));
    if friend == ElevenRole && action == CombineAction
      && HasRadioLike(t1.eleven.items) && Tooth in t1.eleven.items
    then
      var kept := DropCombined(t1.eleven.items);
      var items := kept + [TunedRadio];
      TunedRadioIsKept();
      assert forall i :: 0 <= i < |items| ==> KeptByCombine(items[i]);
      assert multiset(items) == multiset(kept) + multiset{TunedRadio};
      (t1.(eleven := t1.eleven.(items := items, lastAction := Some(now))), true)
    else (t1, false)
  }

  datatype FixReply = FrequencyFound(code: string) | CannotScan(elevenItems: seq<string>)

  /**
   PATCH /{id}/fix: Eleven scans with the tuned radio. Success sets the
   frequency flag, appends a reading and reveals the gate code; the tuned
   radio is not used up, so the scan can be repeated.
   */
  function Fix(t: Team, friend: string, action: string, now: nat): (r: (Team, FixReply))
    ensures r.0.steps == RecordStep(t.steps, Patch)
    ensures r.1.FrequencyFound? <==>
      friend == ElevenRole && action == ScanAction && TunedRadio in t.eleven.items
    ensures r.1.FrequencyFound? ==>
      && r.1.code == GateCode
      && r.0.eleven.hasFrequency
      && r.0.eleven.items == t.eleven.items + [FrequencyReading]
      && TunedRadio in r.0.eleven.items
      && r.0.eleven.lastAction == Some(now)
    ensures r.1.CannotScan? ==> r.0 == t.(steps := r.0.steps) && r.1.elevenItems == t.eleven.items
    ensures r.0.eleven == t.eleven.(items := r.0.eleven.items, hasFrequency := r.0.eleven.hasFrequency,
                                    lastAction := r.0.eleven.lastAction)
    ensures r.0 == t.(steps := r.0.steps, eleven := r.0.eleven)
  {
    var t1 := t.(steps := RecordStep(t.steps, Patch));
    if friend == ElevenRole && action == ScanAction && TunedRadio in t1.eleven.items then
      var eleven := t1.eleven.(hasFrequency := true, items := t1.eleven.items + [FrequencyReading],
                               lastAction := Some(now));
      (t1.(eleven := eleven), FrequencyFound(GateCode))
    else (t1, CannotScan(t1.eleven.items))
  }

  /**
   DELETE /{id}/remove: Mike enters the code on the gate panel. Success needs
   the right code and the broken walkie-talkie, which is replaced by the
   activated panel; Mike's readiness flag (`has_eggs` in the server) is set.
   */
  function Remove(t: Team, friend: string, code: string, now: nat): (r: (Team, bool))
    ensures r.0.steps == RecordStep(t.steps, Delete)
    ensures r.1 <==> friend == MikeRole && code == GateCode && Walkie in t.mike.items
    ensures r.1 ==>
      && r.0.mike.items == RemoveFirst(t.mike.items, Walkie) + [GatePanel]
      && multiset(r.0.mike.items) == multiset(t.mike.items) - multiset{Walkie} + multiset{GatePanel}
      && r.0.mike.items[|r.0.mike.items| - 1] == GatePanel
      && r.0.mike.hasEggs
      && r.0.mike.lastAction == Some(now)
    ensures !r.1 ==> r.0 == t.(steps := r.0.steps)
    ensures r.0.mike == t.mike.(items := r.0.mike.items, hasEggs := r.0.mike.hasEggs,
                                lastAction := r.0.mike.lastAction)
    ensures r.0 == t.(steps := r.0.steps, mike := r.0.mike)
  {
    var t1 := t.(steps := RecordStep(t.steps, Delete));
    if friend == MikeRole && code == GateCode && Walkie in t1.mike.items then
      var rest := RemoveFirst(t1.mike.items, Walkie);
      var items := rest + [GatePanel];
      assert multiset(items) == multiset(rest) + multiset{GatePanel};
      var mike := t1.mike.(items := items, hasEggs := true, lastAction := Some(now));
      (t1.(mike := mike), true)
    else (t1, false)
  }

  /** The headers of HEAD /{id}/status. */
  datatype StatusHeaders = StatusHeaders(
    escaped: bool, elevenReady: bool, mikeReady: bool, elapsed: int, stable: bool)

  /**
   HEAD /{id}/status: a readiness probe. The dimension sync reads STABLE
   exactly when both roles are ready; only the HEAD label is recorded.
   */
  function QuickStatus(t: Team, now: nat): (r: (Team, StatusHeaders))
    ensures r.1.stable <==> t.eleven.hasFrequency && t.mike.hasEggs
    ensures r.1.elevenReady == t.eleven.hasFrequency && r.1.mikeReady == t.mike.hasEggs
    ensures r.1.escaped == t.escaped
    ensures t.startTime + r.1.elapsed == now
    ensures r.0.steps == RecordStep(t.steps, Head) && r.0 == t.(steps := r.0.steps)
  {
    var t1 := t.(steps := RecordStep(t.steps, Head));
    (t1, StatusHeaders(t.escaped, t.eleven.hasFrequency, t.mike.hasEggs, now - t.startTime,
                       t.eleven.hasFrequency && t.mike.hasEggs))
  }

  /**
   OPTIONS /{id}/escape: its headers are fixed text, so the only effect is
   the OPTIONS label.
   */
  function EscapeOptions(t: Team): (r: Team)
    ensures r.steps == RecordStep(t.steps, Options) && r == t.(steps := r.steps)
  {
    t.(steps := RecordStep(t.steps, Options))
  }
}

=== FILE: scenarios.dfy ===
/**
 Properties that relate several requests: repeated scans and activations,
 the walkthrough the demonstration client follows, the escape window in both
 directions, the quirks of the escape check, the hint cooldown, and
 create-or-get returning the same team for equivalent names.
 */
module Scenarios {
  import opened Text
  import opened Items
  import opened TeamModel
  import opened Puzzle
  import opened Escape
  import opened Hints
  import opened Server

  /** Create-or-get twice with names equal after normalisation: one team, no change. */
  lemma CreateTwiceSameTeam(reg: Registry, n1: string, n2: string, f1: string, f2: string,
                            now1: nat, now2: nat)
    requires Valid(reg)
    requires f1 !in reg.teams && f2 !in reg.teams && f1 != f2
    requires Normalize(n1) == Normalize(n2)
    ensures var (reg1, c1) := CreateOrGet(reg, n1, f1, now1);
            var (reg2, c2) := CreateOrGet(reg1, n2, f2, now2);
            !c2.isNew && c2.id == c1.id && reg2 == reg1
  {
  }

  /** The scan does not use up the tuned radio, so it succeeds again. */
  lemma ScanRepeatable(t: Team, now1: nat, now2: nat)
    requires Fix(t, ElevenRole, ScanAction, now1).1.FrequencyFound?
    ensures var u := Fix(t, ElevenRole, ScanAction, now1).0;
            Fix(u, ElevenRole, ScanAction, now2).1.FrequencyFound?
  {
  }

  /**
   With a single walkie-talkie, the panel can be activated once: a second
   attempt is refused and leaves the team as the first one left it.
   */
  lemma ActivateOnce(t: Team, now1: nat, now2: nat)
    requires multiset(t.mike.items)[Walkie] == 1
    requires Remove(t, MikeRole, GateCode, now1).1
    ensures var u := Remove(t, MikeRole, GateCode, now1).0;
            !Remove(u, MikeRole, GateCode, now2).1 && Remove(u, MikeRole, GateCode, now2).0 == u
  {
  }

  /** Combining takes the tooth, so a second combine is refused. */
  lemma CombineOnce(t: Team, now1: nat, now2: nat)
    requires UseItem(t, ElevenRole, CombineAction, now1).1
    ensures var u := UseItem(t, ElevenRole, CombineAction, now1).0;
            !UseItem(u, ElevenRole, CombineAction, now2).1
  {
  }

  /**
   The combine check is wider than the removal: a "tuned radio" satisfies
   the check but is not removed, so combining it with a tooth leaves two
   tuned radios.
   */
  lemma CombineKeepsTunedRadio(t: Team, now: nat)
    requires t.eleven.items == [TunedRadio, Tooth]
    ensures var (u, ok) := UseItem(t, ElevenRole, CombineAction, now);
            ok && u.eleven.items == [TunedRadio, TunedRadio]
  {
    assert Contains(TunedRadio, Radio) by {
      assert OccursAt(TunedRadio, Radio, 6);
      ContainsIffOccurs(TunedRadio, Radio);
    }
    assert HasRadioLike(t.eleven.items) by {
      assert Contains(t.eleven.items[0], Radio);
    }
    TunedRadioIsKept();
    var kept := DropCombined(t.eleven.items);
    assert DropCombined(t.eleven.items[1..]) == [] by {
      assert !KeptByCombine(Tooth);
      assert t.eleven.items[1..][1..] == [];
    }
    assert kept == [TunedRadio];
  }

  /** A team that has not attempted an escape or asked for a hint yet. */
  predicate Quiet(t: Team) {
    Inv(t) && !t.escaped && t.attempts == [] && t.lastHintTime == None
  }

  /** Every label of `labels` has been recorded. */
  predicate HasLabels(t: Team, labels: set<Step>) {
    forall s :: s in labels ==> s in t.steps
  }

  /** Both roles ready, the whole route recorded, no attempt made yet. */
  predicate Primed(t: Team) {
    Quiet(t) && t.eleven.hasFrequency && t.mike.hasEggs && NextStep(t.steps).None?
  }

  /** The two look-arounds that open the demonstration client. */
  function Opening(t: Team): Team {
    Look(Look(t, Eleven).0, Mike).0
  }

  /** The eight puzzle requests of the demonstration client, in order. */
  function Walkthrough(t: Team, now: nat): Team {
    var b := Opening(t);
    var c := SendItem(b, MikeRole, Tooth, now).0;
    var d := UseItem(c, ElevenRole, CombineAction, now).0;
    var e := Fix(d, ElevenRole, ScanAction, now).0;
    var f := Remove(e, MikeRole, GateCode, now).0;
    var g := QuickStatus(f, now).0;
    EscapeOptions(g)
  }

  lemma OpeningStage(id: string, name: string, start: nat)
    ensures var b := Opening(NewTeam(id, name, start));
            && Quiet(b) && HasLabels(b, {GetEleven, GetMike})
            && b.eleven.items == [Radio, Note] && b.mike.items == [Tooth, Walkie]
            && b.name == name && b.startTime == start
  {
  }

  lemma SendStage(b: Team, now: nat, labels: set<Step>)
    requires Quiet(b) && HasLabels(b, labels)
    requires b.eleven.items == [Radio, Note] && b.mike.items == [Tooth, Walkie]
    ensures var c := SendItem(b, MikeRole, Tooth, now).0;
            && Quiet(c) && HasLabels(c, labels + {Post})
            && c.eleven.items == [Radio, Note, Tooth] && Walkie in c.mike.items
            && c.name == b.name && c.startTime == b.startTime
  {
  }

  lemma CombineStage(c: Team, now: nat, labels: set<Step>)
    requires Quiet(c) && HasLabels(c, labels)
    requires c.eleven.items == [Radio, Note, Tooth] && Walkie in c.mike.items
    ensures var d := UseItem(c, ElevenRole, CombineAction, now).0;
            && Quiet(d) && HasLabels(d, labels + {Put})
            && TunedRadio in d.eleven.items && Walkie in d.mike.items
            && d.name == c.name && d.startTime == c.startTime
  {
  }

  lemma ScanStage(d: Team, now: nat, labels: set<Step>)
    requires Quiet(d) && HasLabels(d, labels)
    requires TunedRadio in d.eleven.items && Walkie in d.mike.items
    ensures var e := Fix(d, ElevenRole, ScanAction, now).0;
            && Quiet(e) && HasLabels(e, labels + {Patch})
            && e.eleven.hasFrequency && Walkie in e.mike.items
            && e.name == d.name && e.startTime == d.startTime
  {
  }

  lemma ActivateStage(e: Team, now: nat, labels: set<Step>)
    requires Quiet(e) && HasLabels(e, labels)
    requires e.eleven.hasFrequency && Walkie in e.mike.items
    ensures var f := Remove(e, MikeRole, GateCode, now).0;
            && Quiet(f) && HasLabels(f, labels + {Delete})
            && f.eleven.hasFrequency && f.mike.hasEggs
            && f.name == e.name && f.startTime == e.startTime
  {
  }

  lemma ProbeStage(f: Team, now: nat, labels: set<Step>)
    requires Quiet(f) && HasLabels(f, labels)
    requires f.eleven.hasFrequency && f.mike.hasEggs
    ensures var w := EscapeOptions(QuickStatus(f, now).0);
            && Quiet(w) && HasLabels(w, labels + {Head, Options})
            && w.eleven.hasFrequency && w.mike.hasEggs
            && w.name == f.name && w.startTime == f.startTime
  {
  }

  /**
   From a fresh team every request of the walkthrough succeeds: afterwards
   both roles are ready, every label is recorded and no attempt has been made.
   */
  lemma WalkthroughPrimes(id: string, name: string, start: nat, now: nat)
    ensures var w := Walkthrough(NewTeam(id, name, start), now);
            Primed(w) && w.name == name && w.startTime == start
  {
    var t := NewTeam(id, name, start);
    OpeningStage(id, name, start);
    var b := Opening(t);
    var l1: set<Step> := {GetEleven, GetMike};
    SendStage(b, now, l1);
    var c := SendItem(b, MikeRole, Tooth, now).0;
    CombineStage(c, now, l1 + {Post});
    var d := UseItem(c, ElevenRole, CombineAction, now).0;
    ScanStage(d, now, l1 + {Post} + {Put});
    var e := Fix(d, ElevenRole, ScanAction, now).0;
    ActivateStage(e, now, l1 + {Post} + {Put} + {Patch});
    var f := Remove(e, MikeRole, GateCode, now).0;
    ProbeStage(f, now, l1 + {Post} + {Put} + {Patch} + {Delete});
    var w := EscapeOptions(QuickStatus(f, now).0);
    assert w == Walkthrough(t, now);
    var all := l1 + {Post} + {Put} + {Patch} + {Delete} + {Head, Options};
    assert HasLabels(w, all);
    assert GetEleven in all && GetMike in all && Post in all && Put in all;
    assert Patch in all && Delete in all && Head in all && Options in all;
    AllLabelsPresent(w.steps);
  }

  /**
   The happy path: Eleven tries, then Mike within ten seconds. The first
   attempt waits for the partner, the second escapes with the key built from
   the team name and the time, and the key can then be fetched.
   */
  lemma HappyPathEscapes(w: Team, e1: nat, e2: nat)
    requires Primed(w)
    requires e1 <= e2 <= e1 + Window
    ensures var (w1, r1) := AttemptEscape(w, ElevenRole, e1);
            var (w2, r2) := AttemptEscape(w1, MikeRole, e2);
            && r1 == Waiting(1)
            && r2 == Escaped(EscapeKey(w.name, e2), e2 - w.startTime)
            && w2.escaped && |w2.attempts| == 2
            && GetEscapeKey(w2).Key? && GetEscapeKey(w2).info.key == EscapeKey(w.name, e2)
  {
  }

  /** Two ready attempts twelve seconds apart do not escape; two attempts are reported. */
  lemma DesyncTwelveSeconds(t: Team, e1: nat)
    requires t.eleven.hasFrequency && t.mike.hasEggs && t.attempts == [] && !t.escaped
    ensures var (w1, r1) := AttemptEscape(t, ElevenRole, e1);
            var (w2, r2) := AttemptEscape(w1, MikeRole, e1 + 12);
            r1 == Waiting(1) && r2 == Waiting(2) && !w2.escaped
  {
  }

  /**
   Only the names "Eleven" and "Mike" are checked for readiness: two
   attempts under any other name escape a team in which nobody is ready.
   */
  lemma UnknownRolesEscape(id: string, name: string, start: nat, friend: string, e1: nat, e2: nat)
    requires friend != ElevenRole && friend != MikeRole
    requires e1 <= e2 <= e1 + Window
    ensures var t := NewTeam(id, name, start);
            var (w1, _) := AttemptEscape(t, friend, e1);
            var (w2, r2) := AttemptEscape(w1, friend, e2);
            r2.Escaped? && w2.escaped && !w2.eleven.hasFrequency && !w2.mike.hasEggs
  {
  }

  /**
   There is no already-escaped guard: a further attempt inside the window at
   a different time replaces the key and the end time.
   */
  lemma EscapeAgainRewritesKey(t: Team, friend: string, now: nat)
    requires Inv(t) && t.escaped && Ready(t, friend)
    requires Abs(now - t.attempts[|t.attempts| - 1].time) <= Window
    requires now != t.endTime.value
    ensures var (u, r) := AttemptEscape(t, friend, now);
            r.Escaped? && u.endTime == Some(now) && u.escapeKey != t.escapeKey
  {
    var (u, r) := AttemptEscape(t, friend, now);
    if u.escapeKey == t.escapeKey {
      EscapeKeyDeterminesTime(t.name, now, t.endTime.value);
    }
  }

  /**
   A second hint request within 30 seconds is told to wait between 1 and 30
   seconds, and neither hint counter moves.
   */
  lemma HintCooldown(t: Team, friend: Option<string>, now1: nat, now2: nat)
    requires !CoolingDown(t, now1)
    requires 0 < now1 <= now2 < now1 + Cooldown
    ensures var (u, _) := GetHint(t, friend, now1);
            var (v, r) := GetHint(u, friend, now2);
            r.Wait? && 1 <= r.remaining <= Cooldown && v == u
  {
  }

  /**
   The hint time is tested by truthiness, so a hint stamped at time zero
   starts no cooldown.
   */
  lemma HintAtTimeZeroNoCooldown(t: Team, friend: Option<string>, now: nat)
    requires t.lastHintTime == Some(0)
    ensures !GetHint(t, friend, now).1.Wait?
  {
  }

  /**
   The hint ladder fails on the walkthrough itself: once the route is
   complete and Eleven has made the first escape attempt, a hint request that
   names no role reaches the branch reading the undefined time.
   */
  lemma LadderCrashWitness(w: Team, e1: nat, h: nat)
    requires Primed(w)
    ensures var (w1, _) := AttemptEscape(w, ElevenRole, e1);
            GetHint(w1, None, h).1 == Crashed
  {
  }

  /** The corrected ladder answers the same request with the window's remaining time. */
  lemma LadderFixedAnswers(w: Team, e1: nat, h: nat)
    requires Primed(w)
    requires e1 <= h
    ensures var (w1, _) := AttemptEscape(w, ElevenRole, e1);
            var r := GetHintFixed(w1, None, h).1;
            r.Advice? && r.hint == (if h - e1 > Window then AttemptExpired else Hurry(Window - (h - e1)))
  {
  }
}

=== FILE: server.dfy ===
/**
 The process-wide registry of teams and the dispatch of team-scoped
 requests. Every request is a read-modify-write of one entry: an unknown id
 is "not found" and changes nothing, a known id runs one team transition.
 The registry keeps the ids in creation order, as a Python dict does.
 */
module Server {
  import opened Text
  import opened TeamModel
  import opened Puzzle
  import opened Escape
  import opened Hints

  datatype Registry = Registry(order: seq<string>, teams: map<string, Team>)

  /** Ids are listed once each, in creation order, and exactly the stored ones. */
  ghost predicate IdsListed(reg: Registry) {
    && NoDup(reg.order)
    && (forall k :: k in reg.teams <==> k in reg.order)
  }

  /** Each stored team knows its own id and satisfies the team invariant. */
  ghost predicate TeamsSound(teams: map<string, Team>) {
    forall k :: k in teams ==> teams[k].id == k && Inv(teams[k])
  }

  /** No two stored teams share a normalised name. */
  ghost predicate NamesDistinct(teams: map<string, Team>) {
    forall a, b :: a in teams && b in teams && a != b ==>
      Normalize(teams[a].name) != Normalize(teams[b].name)
  }

  ghost predicate Valid(reg: Registry) {
    IdsListed(reg) && TeamsSound(reg.teams) && NamesDistinct(reg.teams)
  }

  /** Adding a sound team under a new id whose name clashes with none keeps the registry valid. */
  lemma AddTeamValid(reg: Registry, id: string, t: Team)
    requires Valid(reg) && id !in reg.teams && t.id == id && Inv(t)
    requires forall k :: k in reg.teams ==> Normalize(reg.teams[k].name) != Normalize(t.name)
    ensures Valid(Registry(reg.order + [id], reg.teams[id := t]))
  {
  }

  /** Replacing a team by a sound one with the same id and name keeps the registry valid. */
  lemma ReplaceTeamValid(reg: Registry, id: string, u: Team)
    requires Valid(reg) && id in reg.teams
    requires u.id == id && u.name == reg.teams[id].name && Inv(u)
    ensures Valid(reg.(teams := reg.teams[id := u]))
  {
  }

  /** The registry the server starts with. */
  const Empty: Registry := Registry([], map[])

  lemma EmptyIsValid()
    ensures Valid(Empty)
  {
  }

  /** The creation-order position of the first team whose name normalises to `key`. */
  function FindByName(order: seq<string>, teams: map<string, Team>, key: string): (r: Option<nat>)
    requires forall k :: k in order ==> k in teams
    ensures r.None? ==> forall i :: 0 <= i < |order| ==> Normalize(teams[order[i]].name) != key
    ensures r.Some? ==>
      && r.value < |order|
      && Normalize(teams[order[r.value]].name) == key
      && forall i :: 0 <= i < r.value ==> Normalize(teams[order[i]].name) != key
  {
    if order == [] then None
    else if Normalize(teams[order[0]].name) == key then Some(0)
    else
      match FindByName(order[1..], teams, key)
      case None => None
      case Some(j) => Some(j + 1)
  }

  datatype Created = Created(id: string, name: string, isNew: bool)

  /**
   POST /create_team. When a stored team's name equals the new one after
   lower-casing and stripping, that team's id and stored name are returned
   and nothing changes. Otherwise a fresh team is added under `freshId` (the
   server draws it at random; here the caller supplies an unused one).
   */
  function CreateOrGet(reg: Registry, name: string, freshId: string, now: nat): (r: (Registry, Created))
    requires Valid(reg)
    requires freshId !in reg.teams
    ensures Valid(r.0)
    ensures !r.1.isNew <==>
      exists k :: k in reg.teams && Normalize(reg.teams[k].name) == Normalize(name)
    ensures !r.1.isNew ==>
      && r.0 == reg
      && r.1.id in reg.teams
      && Normalize(reg.teams[r.1.id].name) == Normalize(name)
      && r.1.name == reg.teams[r.1.id].name
    ensures r.1.isNew ==>
      && r.1.id == freshId && r.1.name == name
      && r.0.order == reg.order + [freshId]
      && r.0.teams == reg.teams[freshId := NewTeam(freshId, name, now)]
      && Pristine(r.0.teams[freshId])
  {
    var key := Normalize(name);
    match FindByName(reg.order, reg.teams, key)
    case Some(i) =>
      var id := reg.order[i];
      (reg, Created(id, reg.teams[id].name, false))
    case None =>
      assert forall k :: k in reg.teams ==> Normalize(reg.teams[k].name) != key by {
        forall k | k in reg.teams ensures Normalize(reg.teams[k].name) != key {
          var i :| 0 <= i < |reg.order| && reg.order[i] == k;
        }
      }
      var t := NewTeam(freshId, name, now);
      AddTeamValid(reg, freshId, t);
      (Registry(reg.order + [freshId], reg.teams[freshId := t]), Created(freshId, name, true))
  }

  /** The progress snapshot of GET /team_status/{id}. */
  datatype StatusReport = StatusReport(
    name: string, escaped: bool, elapsed: int,
    elevenItems: seq<string>, mikeItems: seq<string>,
    elevenHasFrequency: bool, mikeHasEggs: bool,
    steps: seq<Step>, attempts: nat, hintsUsed: nat)

  function TeamStatus(t: Team, now: nat): StatusReport {
    StatusReport(t.name, t.escaped, now - t.startTime, t.eleven.items, t.mike.items,
                 t.eleven.hasFrequency, t.mike.hasEggs, t.steps, |t.attempts|, TotalHints(t))
  }

  /** The team status and the team's line in the admin overview report the same progress. */
  lemma StatusAgreesWithOverview(t: Team, now: nat)
    ensures var s := TeamStatus(t, now);
            var o := Summarize(t, now);
            && s.name == o.name && s.escaped == o.escaped && s.elapsed == o.elapsed
            && s.elevenHasFrequency == o.elevenReady && s.mikeHasEggs == o.mikeReady
            && |s.steps| == o.stepsCount && s.attempts == o.attempts && s.hintsUsed == o.hintsUsed
  {
  }

  datatype Request =
    | LookReq(role: Role)
    | SendItemReq(fromFriend: string, item: string)
    | UseItemReq(friend: string, action: string)
    | FixReq(friend: string, action: string)
    | RemoveReq(friend: string, code: string)
    | StatusProbe
    | EscapeProbe
    | EscapeReq(friend: string)
    | KeyReq
    | HintReq(asker: Option<string>)
    | TeamStatusReq
    | ResetReq

  datatype Reply =
    | Looked(items: seq<string>)
    | SendR(send: SendReply)
    | UseR(combined: bool)
    | FixR(fix: FixReply)
    | RemoveR(activated: bool)
    | StatusR(headers: StatusHeaders)
    | OptionsR
    | EscapeR(escape: EscapeReply)
    | KeyR(info: KeyInfo)
    | HintR(hint: HintReply)
    | TeamStatusR(report: StatusReport)
    | ResetR

  /**
   What the client sees: an unknown team; an ordinary reply (puzzle
   refusals included, with their success flag false); or a client error
   (escape while not ready, key before escaping).
   */
  datatype Response = NotFound | Ok(reply: Reply) | ClientError

  /** POST /admin/reset_team/{id}: a fresh team under the same id and name. */
  function ResetTeam(t: Team, now: nat): (r: Team)
    ensures r.id == t.id && r.name == t.name && r.startTime == now
    ensures Pristine(r) && Inv(r)
  {
    NewTeam(t.id, t.name, now)
  }

  /** The requests that move the puzzle along, and the two probes. */
  predicate IsPuzzleRequest(req: Request) {
    req.LookReq? || req.SendItemReq? || req.UseItemReq? || req.FixReq? || req.RemoveReq?
    || req.StatusProbe? || req.EscapeProbe?
  }

  /**
   A puzzle request only ever adds its label, moves items and raises
   readiness flags, so it keeps the invariant and only grows the team.
   */
  function PuzzleStep(t: Team, req: Request, now: nat): (r: (Team, Response))
    requires Inv(t) && IsPuzzleRequest(req)
    ensures Inv(r.0) && Grows(t, r.0)
    ensures r.0.escaped == t.escaped && r.0.attempts == t.attempts
  {
    match req
    case LookReq(role) => var (u, items) := Look(t, role); (u, Ok(Looked(items)))
    case SendItemReq(f, item) => var (u, s) := SendItem(t, f, item, now); (u, Ok(SendR(s)))
    case UseItemReq(f, a) => var (u, ok) := UseItem(t, f, a, now); (u, Ok(UseR(ok)))
    case FixReq(f, a) => var (u, x) := Fix(t, f, a, now); (u, Ok(FixR(x)))
    case RemoveReq(f, c) => var (u, ok) := Remove(t, f, c, now); (u, Ok(RemoveR(ok)))
    case StatusProbe => var (u, h) := QuickStatus(t, now); (u, Ok(StatusR(h)))
    case EscapeProbe => (EscapeOptions(t), Ok(OptionsR))
  }

  /**
   One team-scoped request applied to a stored team. Every request keeps the
   team invariant (so the key is set exactly when the team has escaped) and
   the team's id and name; apart from a reset, the team only grows; a reset
   restores the creation defaults; the key and status reads change nothing.
   Hints go through the corrected ladder, which updates the team exactly as
   the server does.
   */
  function TeamStep(t: Team, req: Request, now: nat): (r: (Team, Response))
    requires Inv(t)
    ensures Inv(r.0) && r.0.id == t.id && r.0.name == t.name
    ensures !req.ResetReq? ==> Grows(t, r.0)
    ensures req.ResetReq? ==> Pristine(r.0)
    ensures req.KeyReq? || req.TeamStatusReq? ==> r.0 == t
    ensures req.HintReq? ==> r.0 == GetHint(t, req.asker, now).0
  {
    if IsPuzzleRequest(req) then PuzzleStep(t, req, now)
    else
      match req
      case EscapeReq(f) =>
        var (u, e) := AttemptEscape(t, f, now);
        (u, if e.Rejected? then ClientError else Ok(EscapeR(e)))
      case KeyReq =>
        (t, match GetEscapeKey(t) case Key(info) => Ok(KeyR(info)) case NotEscapedYet => ClientError)
      case HintReq(f) =>
        var (u, h) := GetHintFixed(t, f, now);
        (u, Ok(HintR(h)))
      case TeamStatusReq => (t, Ok(TeamStatusR(TeamStatus(t, now))))
      case ResetReq => (ResetTeam(t, now), Ok(ResetR))
  }

  /** The two probes: repeating one changes nothing more. */
  lemma ProbesIdempotent(t: Team, now: nat, later: nat)
    requires Inv(t)
    ensures var u := TeamStep(t, StatusProbe, now).0; TeamStep(u, StatusProbe, later).0 == u
    ensures var u := TeamStep(t, EscapeProbe, now).0; TeamStep(u, EscapeProbe, later).0 == u
  {
  }

  /**
   A team-scoped endpoint on the registry: not found (and no change) for an
   unknown id; otherwise only that id's team is replaced, the invariant is
   kept, reads change nothing, and a reset restores the creation defaults.
   */
  function Handle(reg: Registry, id: string, req: Request, now: nat): (r: (Registry, Response))
    requires Valid(reg)
    ensures Valid(r.0)
    ensures r.1.NotFound? <==> id !in reg.teams
    ensures id !in reg.teams ==> r.0 == reg
    ensures r.0.order == reg.order && r.0.teams.Keys == reg.teams.Keys
    ensures forall k :: k in reg.teams && k != id ==> r.0.teams[k] == reg.teams[k]
    ensures id in reg.teams && !req.ResetReq? ==> Grows(reg.teams[id], r.0.teams[id])
    ensures id in reg.teams && req.ResetReq? ==>
      && r.0.teams[id].id == id && r.0.teams[id].name == reg.teams[id].name
      && Pristine(r.0.teams[id])
    ensures req.KeyReq? || req.TeamStatusReq? ==> r.0 == reg
  {
    if id !in reg.teams then (reg, NotFound)
    else
      var t := reg.teams[id];
      var (u, resp) := TeamStep(t, req, now);
      ReplaceTeamValid(reg, id, u);
      (reg.(teams := reg.teams[id := u]), resp)
  }

  /** One line of GET /admin/all_teams. */
  datatype Summary = Summary(
    id: string, name: string, escaped: bool, elapsed: int,
    elevenReady: bool, mikeReady: bool, stepsCount: nat, hintsUsed: nat, attempts: nat)

  datatype Overview = Overview(total: nat, escapedCount: nat, trappedCount: nat, teams: seq<Summary>)

  function Summarize(t: Team, now: nat): Summary {
    Summary(t.id, t.name, t.escaped, now - t.startTime, t.eleven.hasFrequency, t.mike.hasEggs,
            |t.steps|, TotalHints(t), |t.attempts|)
  }

  /** The summaries of the teams listed in `order`, in that order. */
  function Summaries(order: seq<string>, teams: map<string, Team>, now: nat): (r: seq<Summary>)
    requires forall k :: k in order ==> k in teams
    ensures |r| == |order|
    ensures forall i :: 0 <= i < |order| ==> r[i] == Summarize(teams[order[i]], now)
  {
    if order == [] then [] else [Summarize(teams[order[0]], now)] + Summaries(order[1..], teams, now)
  }

  /** How many summaries have the given escape status. */
  function CountWith(s: seq<Summary>, escaped: bool): (n: nat)
    ensures n <= |s|
  {
    if s == [] then 0 else (if s[0].escaped == escaped then 1 else 0) + CountWith(s[1..], escaped)
  }

  lemma {:induction false} CountSplits(s: seq<Summary>)
    ensures CountWith(s, true) + CountWith(s, false) == |s|
  {
    if s != [] {
      CountSplits(s[1..]);
    }
  }

  /**
   GET /admin/all_teams: one summary per team in creation order, and the
   escaped and trapped counts add up to the total.
   */
  function AllTeams(reg: Registry, now: nat): (r: Overview)
    requires Valid(reg)
    ensures r.total == |reg.teams|
    ensures r.escapedCount + r.trappedCount == r.total
    ensures |r.teams| == |reg.order|
    ensures forall i :: 0 <= i < |reg.order| ==> r.teams[i] == Summarize(reg.teams[reg.order[i]], now)
    ensures forall i :: 0 <= i < |reg.order| ==> r.teams[i].id == reg.order[i]
  {
    var s := Summaries(reg.order, reg.teams, now);
    CountSplits(s);
    OrderCoversTeams(reg);
    Overview(|s|, CountWith(s, true), CountWith(s, false), s)
  }

  /** The escaped count of the overview is the number of escaped teams. */
  lemma AllTeamsCountsEscaped(reg: Registry, now: nat)
    requires Valid(reg)
    ensures AllTeams(reg, now).escapedCount == |set k | k in reg.teams && reg.teams[k].escaped|
  {
    CountMatchesSet(reg.order, reg.teams, now);
    assert (set k | k in reg.order && reg.teams[k].escaped)
        == (set k | k in reg.teams && reg.teams[k].escaped);
  }

  lemma OrderCoversTeams(reg: Registry)
    requires Valid(reg)
    ensures |reg.order| == |reg.teams|
  {
    NoDupCard(reg.order);
    assert reg.teams.Keys == set k | k in reg.order;
  }

  lemma {:induction false} NoDupCard(s: seq<string>)
    requires NoDup(s)
    ensures |set k | k in s| == |s|
  {
    if s != [] {
      NoDupCard(s[1..]);
      assert (set k | k in s) == {s[0]} + (set k | k in s[1..]);
      assert s[0] !in s[1..];
    }
  }

  /** Peeling the first key off `order` splits the set of escaped keys. */
  lemma EscapedSetSplit(order: seq<string>, teams: map<string, Team>)
    requires order != [] && order[0] !in order[1..]
    requires forall k :: k in order ==> k in teams
    ensures |set k | k in order && teams[k].escaped|
         == (if teams[order[0]].escaped then 1 else 0) + |set k | k in order[1..] && teams[k].escaped|
  {
    var k0 := order[0];
    var whole := set k | k in order && teams[k].escaped;
    var tail := set k | k in order[1..] && teams[k].escaped;
    assert k0 !in tail;
    if teams[k0].escaped {
      assert whole == {k0} + tail;
    } else {
      assert whole == tail;
    }
  }

  /** Counting escaped summaries counts the escaped teams listed in `order`. */
  lemma {:induction false} CountMatchesSet(order: seq<string>, teams: map<string, Team>, now: nat)
    requires NoDup(order)
    requires forall k :: k in order ==> k in teams
    requires forall k :: k in teams ==> teams[k].id == k
    ensures CountWith(Summaries(order, teams, now), true)
         == |set k | k in order && teams[k].escaped|
  {
    if order != [] {
      var rest := order[1..];
      assert NoDup(rest) by {
        assert forall i :: 0 <= i < |rest| ==> rest[i] == order[i + 1];
      }
      CountMatchesSet(rest, teams, now);
      var s := Summaries(order, teams, now);
      assert s[1..] == Summaries(rest, teams, now);
      assert s[0].escaped == teams[order[0]].escaped;
      assert order[0] !in rest by {
        assert forall i :: 0 <= i < |rest| ==> rest[i] == order[i + 1];
      }
      EscapedSetSplit(order, teams);
    }
  }

  /** One team-scoped call of a trace: which team, which request, when. */
  datatype Call = Call(id: string, req: Request, now: nat)

  /**
   Any sequence of team-scoped calls keeps the registry invariant, so after
   every prefix of every trace each team holds a key exactly when it has
   escaped.
   */
  function Run(reg: Registry, calls: seq<Call>): (r: Registry)
    requires Valid(reg)
    ensures Valid(r)
    ensures r.order == reg.order
    ensures forall k :: k in r.teams ==> (r.teams[k].escapeKey.Some? <==> r.teams[k].escaped)
    decreases |calls|
  {
    if calls == [] then reg
    else Run(Handle(reg, calls[0].id, calls[0].req, calls[0].now).0, calls[1..])
  }

  /**
   Without a reset in the trace, every team only grows: labels and attempts
   are kept, and flags and counters never go back.
   */
  lemma {:induction false} RunGrows(reg: Registry, calls: seq<Call>)
    requires Valid(reg)
    requires forall i :: 0 <= i < |calls| ==> !calls[i].req.ResetReq?
    ensures forall k :: k in reg.teams ==> k in Run(reg, calls).teams && Grows(reg.teams[k], Run(reg, calls).teams[k])
    decreases |calls|
  {
    if calls != [] {
      var c := calls[0];
      var mid := Handle(reg, c.id, c.req, c.now).0;
      RunGrows(mid, calls[1..]);
      forall k | k in reg.teams
        ensures k in Run(reg, calls).teams && Grows(reg.teams[k], Run(reg, calls).teams[k])
      {
        assert Run(reg, calls) == Run(mid, calls[1..]);
        if k == c.id {
          assert Grows(reg.teams[k], mid.teams[k]);
        } else {
          assert mid.teams[k] == reg.teams[k];
        }
        GrowsTransitive(reg.teams[k], mid.teams[k], Run(mid, calls[1..]).teams[k]);
      }
    }
  }
}

=== FILE: team.dfy ===
/**
 The state of one team: two role states ("Eleven" and "Mike"), the step
 labels recorded so far, the escape-attempt history, the escape flag and key,
 and the time of the last hint. Times are whole seconds of an injected clock.
 */
module TeamModel {
  import opened Text
  import opened Items

  datatype Option<T> = None | Some(value: T)

  /** The labels `steps_completed` may hold, one per request category. */
  datatype Step = GetEleven | GetMike | Post | Put | Patch | Delete | Head | Options

  /** The string the server stores for each label. */
  function Label(s: Step): string {
    match s
    case GetEleven => "GET_ELEVEN"
    case GetMike => "GET_MIKE"
    case Post => "POST"
    case Put => "PUT"
    case Patch => "PATCH"
    case Delete => "DELETE"
    case Head => "HEAD"
    case Options => "OPTIONS"
  }

  /** Distinct labels are stored as distinct strings, so the label list mirrors `steps_completed`. */
  lemma LabelInjective(a: Step, b: Step)
    requires Label(a) == Label(b)
    ensures a == b
  {
  }

  /** One entry of `escape_attempts`: who tried (any string) and when. */
  datatype Attempt = Attempt(friend: string, time: nat)

  /**
   One role's state. Both roles carry both readiness flags, as in the
   server; only Eleven's `hasFrequency` and Mike's `hasEggs` are ever set.
   */
  datatype RoleState = RoleState(
    items: seq<string>,
    hasFrequency: bool,
    hasEggs: bool,
    lastAction: Option<nat>,
    hintsUsed: nat)

  datatype Team = Team(
    id: string,
    name: string,
    escaped: bool,
    escapeKey: Option<string>,
    startTime: nat,
    endTime: Option<nat>,
    eleven: RoleState,
    mike: RoleState,
    steps: seq<Step>,
    attempts: seq<Attempt>,
    lastHintTime: Option<nat>)

  const ElevenRole: string := "Eleven"
  const MikeRole: string := "Mike"

  /** Width of the escape synchronisation window, in seconds. */
  const Window: int := 10

  /** The key handed out on escape: `f"ESCAPE_{team_name}_{int(now)}"`. */
  function EscapeKey(name: string, now: nat): string {
    "ESCAPE_" + name + "_" + NatToString(now)
  }

  /** A role as created: the given items, no flag set, no hint used. */
  function FreshRole(items: seq<string>): RoleState {
    RoleState(items, false, false, None, 0)
  }

  /** The record `create_new_team` stores (and `reset_team` restores). */
  function NewTeam(id: string, name: string, now: nat): Team {
    Team(id, name, false, None, now, None,
         FreshRole([Radio, Note]), FreshRole([Tooth, Walkie]),
         [], [], None)
  }

  /** Every field other than id, name and start time holds its creation default. */
  predicate Pristine(t: Team) {
    && !t.escaped && t.escapeKey == None && t.endTime == None
    && t.eleven == FreshRole([Radio, Note])
    && t.mike == FreshRole([Tooth, Walkie])
    && t.steps == [] && t.attempts == [] && t.lastHintTime == None
  }

  predicate NoDup<T(==)>(s: seq<T>) {
    forall i, j :: 0 <= i < j < |s| ==> s[i] != s[j]
  }

  /**
   `if label not in steps: steps.append(label)`: the label ends up present
   exactly once, earlier labels stay where they were, nothing is removed.
   */
  function RecordStep(steps: seq<Step>, s: Step): (r: seq<Step>)
    ensures s in r
    ensures steps <= r && |r| <= |steps| + 1
    ensures forall x :: x in r <==> x in steps || x == s
    ensures s in steps ==> r == steps
    ensures NoDup(steps) ==> NoDup(r)
  {
    if s in steps then steps else steps + [s]
  }

  function TotalHints(t: Team): nat {
    t.eleven.hintsUsed + t.mike.hintsUsed
  }

  /**
   What holds of every team the server stores: the key and the end time are
   present exactly when the team has escaped, step labels are not repeated,
   an escaped team has at least the two attempts that got it out, and its key
   is the one made at its end time.
   */
  predicate Inv(t: Team) {
    && (t.escapeKey.Some? <==> t.escaped)
    && (t.endTime.Some? <==> t.escaped)
    && NoDup(t.steps)
    && (t.escaped ==> |t.attempts| >= 2)
    && (t.escaped && t.endTime.Some? ==> t.escapeKey == Some(EscapeKey(t.name, t.endTime.value)))
  }

  /**
   How a team may change between two states without a reset: identity and
   start time are fixed, step labels and attempts are only appended, and
   the escape flag, the readiness flags and the hint counters never go back.
   */
  predicate Grows(t: Team, u: Team) {
    && u.id == t.id && u.name == t.name && u.startTime == t.startTime
    && t.steps <= u.steps
    && t.attempts <= u.attempts
    && (t.escaped ==> u.escaped)
    && (t.eleven.hasFrequency ==> u.eleven.hasFrequency)
    && (t.eleven.hasEggs ==> u.eleven.hasEggs)
    && (t.mike.hasFrequency ==> u.mike.hasFrequency)
    && (t.mike.hasEggs ==> u.mike.hasEggs)
    && t.eleven.hintsUsed <= u.eleven.hintsUsed
    && t.mike.hintsUsed <= u.mike.hintsUsed
  }

  lemma NewTeamIsPristine(id: string, name: string, now: nat)
    ensures Pristine(NewTeam(id, name, now)) && Inv(NewTeam(id, name, now))
  {
  }

  lemma GrowsTransitive(t: Team, u: Team, v: Team)
    requires Grows(t, u) && Grows(u, v)
    ensures Grows(t, v)
  {
  }
}

=== FILE: text.dfy ===
/**
 String helpers the puzzle server relies on: the ASCII part of Python's
 `str.lower()` and `str.strip()`, the substring test `sub in s`, the prefix
 test `s.startswith(p)`, and the decimal rendering `str(n)` of a natural
 number together with its inverse.
 */
module Text {

  /** Lower-cases an ASCII capital letter; every other character is kept. */
  function LowerChar(c: char): char {
    if 'A' <= c <= 'Z' then (c as int + 32) as char else c
  }

  /** `s.lower()` restricted to ASCII letters. */
  function Lower(s: string): (r: string)
    ensures |r| == |s|
    ensures forall i :: 0 <= i < |s| ==> r[i] == LowerChar(s[i])
  {
    if s == [] then [] else [LowerChar(s[0])] + Lower(s[1..])
  }

  /** The ASCII characters for which Python's `str.isspace()` holds. */
  predicate IsSpace(c: char) {
    var n := c as int;
    n == 32 || 9 <= n <= 13 || 28 <= n <= 31
  }

  /** `s.lstrip()`: drops the leading white space. */
  function TrimStart(s: string): (r: string)
    ensures |r| <= |s|
  {
    if s != [] && IsSpace(s[0]) then TrimStart(s[1..]) else s
  }

  /** `s.rstrip()`: drops the trailing white space. */
  function TrimEnd(s: string): (r: string)
    ensures |r| <= |s|
  {
    if s != [] && IsSpace(s[|s| - 1]) then TrimEnd(s[..|s| - 1]) else s
  }

  /** `s.strip()`. */
  function Strip(s: string): (r: string)
    ensures |r| <= |s|
  {
    TrimEnd(TrimStart(s))
  }

  /** `lstrip` keeps a suffix and removes only white space, up to a non-space. */
  lemma {:induction false} TrimStartSpec(s: string)
    ensures TrimStart(s) == s[|s| - |TrimStart(s)|..]
    ensures forall i :: 0 <= i < |s| - |TrimStart(s)| ==> IsSpace(s[i])
    ensures TrimStart(s) == [] || !IsSpace(TrimStart(s)[0])
  {
    if s != [] && IsSpace(s[0]) {
      TrimStartSpec(s[1..]);
      var r := TrimStart(s);
      assert forall i :: 1 <= i < |s| - |r| ==> s[i] == s[1..][i - 1];
    }
  }

  /** `rstrip` keeps a prefix and removes only white space, back to a non-space. */
  lemma {:induction false} TrimEndSpec(s: string)
    ensures TrimEnd(s) == s[..|TrimEnd(s)|]
    ensures forall i :: |TrimEnd(s)| <= i < |s| ==> IsSpace(s[i])
    ensures TrimEnd(s) == [] || !IsSpace(TrimEnd(s)[|TrimEnd(s)| - 1])
  {
    if s != [] && IsSpace(s[|s| - 1]) {
      TrimEndSpec(s[..|s| - 1]);
      var r := TrimEnd(s);
      assert forall i :: |r| <= i < |s| - 1 ==> s[i] == s[..|s| - 1][i];
    }
  }

  /** Number of white-space characters `strip()` removes from the front of `s`. */
  function LeadingSpace(s: string): (n: nat)
    ensures n <= |s|
  {
    |s| - |TrimStart(s)|
  }

  /**
   `strip()` keeps the slice of `s` that starts at the first and ends at the
   last non-space character; everything cut away is white space.
   */
  lemma StripSpec(s: string)
    ensures LeadingSpace(s) + |Strip(s)| <= |s|
    ensures Strip(s) == s[LeadingSpace(s)..LeadingSpace(s) + |Strip(s)|]
    ensures forall i :: 0 <= i < LeadingSpace(s) ==> IsSpace(s[i])
    ensures forall i :: LeadingSpace(s) + |Strip(s)| <= i < |s| ==> IsSpace(s[i])
    ensures Strip(s) == [] || (!IsSpace(Strip(s)[0]) && !IsSpace(Strip(s)[|Strip(s)| - 1]))
  {
    var t := TrimStart(s);
    var r := TrimEnd(t);
    var n := LeadingSpace(s);
    TrimStartSpec(s);
    TrimEndSpec(t);
    assert t == s[n..];
    assert r == t[..|r|];
    assert forall i :: n + |r| <= i < |s| ==> s[i] == t[i - n];
  }

  /** The comparison key create-or-get uses: `name.lower().strip()`. */
  function Normalize(name: string): string {
    Strip(Lower(name))
  }

  predicate IsLower(s: string) {
    forall i :: 0 <= i < |s| ==> LowerChar(s[i]) == s[i]
  }

  lemma LowerOfLower(s: string)
    requires IsLower(s)
    ensures Lower(s) == s
  {
  }

  lemma {:induction false} StripOfStripped(s: string)
    requires s == [] || (!IsSpace(s[0]) && !IsSpace(s[|s| - 1]))
    ensures Strip(s) == s
  {
  }

  /** Normalising twice is the same as normalising once. */
  lemma NormalizeIdempotent(name: string)
    ensures Normalize(Normalize(name)) == Normalize(name)
  {
    var n := Normalize(name);
    var low := Lower(name);
    StripSpec(low);
    assert n == low[LeadingSpace(low)..LeadingSpace(low) + |n|];
    assert forall i :: 0 <= i < |n| ==> n[i] == low[LeadingSpace(low) + i];
    assert IsLower(n);
    LowerOfLower(n);
    StripOfStripped(n);
  }

  /** Names differing only in the case of ASCII letters normalise alike. */
  lemma {:induction false} LowerIgnoresCase(s: string, t: string)
    requires |s| == |t|
    requires forall i :: 0 <= i < |s| ==> LowerChar(s[i]) == LowerChar(t[i])
    ensures Normalize(s) == Normalize(t)
  {
    assert Lower(s) == Lower(t);
  }

  /** `s.startswith(p)`. */
  predicate StartsWith(s: string, p: string) {
    |p| <= |s| && s[..|p|] == p
  }

  /** `sub` occurs in `s` starting at index `i`. */
  predicate OccursAt(s: string, sub: string, i: int) {
    0 <= i && i + |sub| <= |s| && s[i..i + |sub|] == sub
  }

  /** Python's substring test `sub in s`, scanning left to right. */
  predicate Contains(s: string, sub: string)
    decreases |s|
  {
    StartsWith(s, sub) || (s != [] && Contains(s[1..], sub))
  }

  /** The scan agrees with the positional definition of a substring. */
  lemma {:induction false} ContainsIffOccurs(s: string, sub: string)
    ensures Contains(s, sub) <==> exists i :: OccursAt(s, sub, i)
    decreases |s|
  {
    if StartsWith(s, sub) {
      assert OccursAt(s, sub, 0);
    } else if s != [] {
      ContainsIffOccurs(s[1..], sub);
      forall i | 1 <= i
        ensures OccursAt(s, sub, i) <==> OccursAt(s[1..], sub, i - 1)
      {
        if i + |sub| <= |s| {
          assert s[1..][i - 1..i - 1 + |sub|] == s[i..i + |sub|];
        }
      }
      if Contains(s[1..], sub) {
        var j :| OccursAt(s[1..], sub, j);
        assert OccursAt(s, sub, j + 1);
      }
    }
  }

  predicate IsDigit(c: char) {
    '0' <= c <= '9'
  }

  function DigitChar(d: nat): (c: char)
    requires d < 10
    ensures IsDigit(c)
  {
    ('0' as int + d) as char
  }

  function DigitValue(c: char): (d: nat)
    requires IsDigit(c)
    ensures d < 10
  {
    c as int - '0' as int
  }

  /** `str(n)` for a non-negative integer: decimal digits, no leading zero. */
  function NatToString(n: nat): (r: string)
    ensures |r| >= 1
    ensures forall i :: 0 <= i < |r| ==> IsDigit(r[i])
    ensures r[0] == '0' ==> n == 0
    decreases n
  {
    if n < 10 then [DigitChar(n)] else NatToString(n / 10) + [DigitChar(n % 10)]
  }

  /** `int(s)` for a string of decimal digits. */
  function ParseNat(s: string): nat
    requires forall i :: 0 <= i < |s| ==> IsDigit(s[i])
  {
    if s == [] then 0 else ParseNat(s[..|s| - 1]) * 10 + DigitValue(s[|s| - 1])
  }

  /** Parsing undoes rendering, so `str(n)` determines `n`. */
  lemma {:induction false} ParseNatToString(n: nat)
    ensures ParseNat(NatToString(n)) == n
    decreases n
  {
    var r := NatToString(n);
    if n >= 10 {
      ParseNatToString(n / 10);
      assert r[..|r| - 1] == NatToString(n / 10);
    }
  }

  lemma NatToStringInjective(a: nat, b: nat)
    requires NatToString(a) == NatToString(b)
    ensures a == b
  {
    ParseNatToString(a);
    ParseNatToString(b);
  }
}
